=== FILE: README.md ===
# dns_tracker A-record fingerprint, in Dafny

dns_tracker is meant to watch a DNS server and report when its answer for a
name changes (main.cpp:4-9; the help text at main.cpp:28 describes a request
repeated every 30 seconds until the response changes). To compare two answers
it reduces each A-record answer to a fingerprint (`hashing.cpp`). This version
does a single lookup, and nothing calls `hash_a_record` yet: with `-c` the
program only reports that measuring is not implemented (dnstracker.cpp:9-11).
The fingerprint works as follows:

- `Hashing::normalize_name` trims the owner name, lower-cases it and removes one trailing `.`.
- `Hashing::hash_a_record` builds one part `"<normalised name>|<address text>"` per record, appending to a vector.
- It then sorts the vector in place with `std::sort`.
- It appends each part in UTF-8 to a byte buffer, each followed by `'\n'`.
- It returns the MD5 digest of that buffer.

This project models those two functions and proves what the fingerprint
promises:
- Record order does not matter.
- TTLs do not matter.
- The spelling of a name does not matter (ASCII letter case, surrounding whitespace, one trailing dot).
- For names and addresses without `'\n'`, every other difference in the (name, address) parts shows in the bytes that are hashed.
- For names and addresses without `'\n'`, there is one line per record, duplicates included.

Files:

- `QtString.dfy`: the QString operations the code relies on.
  - `trimmed()` is the two scans Qt does: back from the end, then forward.
  - `toLower()` is restricted to ASCII.
  - `operator<` is shown to be the lexicographic order on UTF-16 code units.
- `Utf8.dfy`: `QString::toUtf8()`, a UTF-8 encoder with a decoding round trip and injectivity.
- `Sorting.dfy`: `std::sort` over the parts. It is an in-place sort of an array, proved to produce the sorted permutation. Any two sorted permutations of the same strings are equal.
- `Hashing.dfy`: `normalize_name` and each record's part are functions. The two loops of `hash_a_record` are the methods `BuildParts` and `JoinLines`, and `Canonical` and `HashARecord` are methods that call them and `SortInPlace`. Each method is proved equal to a specification function, and the properties above are proved as lemmas about those functions.

Two details of the code that the model keeps:
- `normalize_name` trims whitespace from the name before lower-casing it (hashing.cpp:9).
- Every part is followed by `'\n'`, the last one included; there is no separator between parts (hashing.cpp:25-28).

## Model

| member | source | states |
|---|---|---|
| QtString.IsSpace | hashing.cpp:9 | `QChar::isSpace`, the whitespace `trimmed()` removes: TAB..CR, space, U+0085 and the Unicode space, line and paragraph separators; TrimmedUnique and TrimmedDecomposes characterise trimming in terms of it |
| QtString.TrimEndPos | hashing.cpp:9 | the backward scan of `trimmed()` stops after the last non-space character, and only whitespace lies beyond it |
| QtString.TrimStartPos | hashing.cpp:9 | the forward scan of `trimmed()` stops at the first non-space character, and only whitespace lies before it |
| QtString.Trimmed | hashing.cpp:9 | `trimmed()` is never longer than its input, neither starts nor ends with whitespace, and is empty exactly when the input is all whitespace |
| QtString.TrimmedUnique | hashing.cpp:9 | whatever whitespace surrounds a core that has no leading or trailing whitespace, `trimmed()` returns exactly that core |
| QtString.TrimmedDecomposes | hashing.cpp:9 | every string is whitespace, then its trimmed form, then whitespace |
| QtString.ToLower | hashing.cpp:9 | `toLower()` keeps the length and lower-cases each character on its own (restricted to ASCII) |
| QtString.LowerChar | hashing.cpp:9 | lower-casing leaves no ASCII capital, changes exactly the capitals (by +32) and keeps whitespace whitespace |
| QtString.ToLowerAppend | hashing.cpp:9 | `toLower()` works character by character: it distributes over concatenation |
| QtString.TrimmedToLower | hashing.cpp:9 | `trimmed()` then `toLower()` equals `toLower()` then `trimmed()` |
| QtString.LessThan | hashing.cpp:23 | QString `operator<`, the order `std::sort` uses; LessThanIsUtf16Order proves it is the UTF-16 code-unit comparison, and LessIrreflexive, LessTransitive and LessTrichotomy that it is a strict total order |
| QtString.LessIrreflexive | hashing.cpp:23 | no string sorts before itself |
| QtString.LessTransitive | hashing.cpp:23 | the string order `std::sort` uses is transitive |
| QtString.LessTrichotomy | hashing.cpp:23 | of `a < b`, `a == b` and `b < a` exactly one holds |
| QtString.LessThanIsUtf16Order | hashing.cpp:23 | the per-character order is the lexicographic order of the UTF-16 code units of the two strings |
| Utf8.EncodeChar | hashing.cpp:26 | one character encodes as 1 to 4 bytes; the lead byte announces the length, the others are continuation bytes, and exactly ASCII is one byte, itself |
| Utf8.DecodeEncodeChar | hashing.cpp:26 | decoding the bytes of a character gives back its code point |
| Utf8.Encode | hashing.cpp:26 | the encoding has at least one byte per character and holds a newline byte exactly when the string holds `'\n'` |
| Utf8.EncodeInjective | hashing.cpp:26 | different strings have different UTF-8 encodings |
| Sorting.AdjacentSortedIsSorted | hashing.cpp:23 | a sequence whose neighbours are in order is sorted |
| Sorting.Insert | hashing.cpp:23 | inserting into a sorted sequence keeps it sorted and adds exactly that element |
| Sorting.SortSeq | hashing.cpp:23 | the sorted arrangement is sorted and a permutation of its input |
| Sorting.SortedUnique | hashing.cpp:23 | two sorted permutations of the same strings are the same sequence |
| Sorting.SortedPermutationIsSortSeq | hashing.cpp:23 | any sorted permutation of the parts is their sorted arrangement |
| Sorting.SiftStep | hashing.cpp:23 | swapping a part with a greater predecessor keeps the same strings and moves the unsorted gap one step left |
| Sorting.InsertAt | hashing.cpp:23 | one insertion pass leaves the prefix up to position i in order, holding the same strings as before, and leaves everything after position i unchanged |
| Sorting.SortInPlace | hashing.cpp:23 | after the in-place sort the vector is sorted, a permutation of what it held, and equal to the sorted arrangement of the old contents |
| Hashing.DropFinalDot | hashing.cpp:10 | `chop(1)` after `endsWith('.')`: a string without a final dot is returned unchanged, and one with it is the result plus `"."` |
| Hashing.NormalizeName | hashing.cpp:8-12 | the normalised name has no ASCII capital, does not start with whitespace, and is the lower-cased trimmed name with its final character removed exactly when that character is `.` (so at most one character shorter than the trimmed name) |
| Hashing.NormalizeIgnoresCase | hashing.cpp:9 | names equal up to ASCII letter case normalise alike |
| Hashing.NormalizeIgnoresSurroundingSpace | hashing.cpp:9 | whitespace added before and after a name does not change its normal form |
| Hashing.NormalizeIgnoresTrailingDot | hashing.cpp:10 | a name that is empty or ends in neither `.` nor whitespace normalises like the same name with one trailing dot added |
| Hashing.NormalizeRemovesOneDotOnly | hashing.cpp:10 | `"a.."` normalises to `"a."`, and that to `"a"`: only one dot goes per call |
| Hashing.NormalizeIdempotentIff | hashing.cpp:8-12 | normalising a normal form again changes it exactly when it still ends in a dot or in whitespace |
| Hashing.NormalizeNoNewline | hashing.cpp:8-12 | normalising never introduces a newline |
| Hashing.Part | hashing.cpp:18-20 | `QString("%1\|%2").arg(name, target)` for one record; CanonicalIgnoresTtlAndNameForm shows that the TTL and the name's spelling do not reach it, and PartNoNewline that it adds no newline |
| Hashing.BuildParts | hashing.cpp:15-21 | the loop appends, in record order, exactly the parts of the records |
| Hashing.JoinLines | hashing.cpp:24-28 | the loop produces each part's UTF-8 bytes followed by a newline, in vector order |
| Hashing.Canonical | hashing.cpp:15-28 | building, sorting and joining yields exactly the canonical bytes: the joined sorted arrangement of the parts |
| Hashing.HashARecord | hashing.cpp:14-30 | the result is the fingerprint, MD5 applied to the canonical bytes, so FingerprintIgnoresOrderAndTtl applies to it |
| Hashing.MapSeqPermutation | hashing.cpp:17-21 | mapping records to parts commutes with reordering the records |
| Hashing.PartsPermutation | hashing.cpp:17-21 | reordered records give the same parts, counted with multiplicity |
| Hashing.CanonicalDependsOnPartsOnly | hashing.cpp:23-28 | answers with the same parts, counted with multiplicity, have the same canonical bytes |
| Hashing.CanonicalIgnoresOrder | hashing.cpp:14-28 | a permutation of the records has the same canonical bytes |
| Hashing.CanonicalIgnoresTtlAndNameForm | hashing.cpp:17-21 | answers that agree record by record on normalised name and address have the same canonical bytes, whatever their TTLs and name spellings |
| Hashing.FingerprintIgnoresOrderAndTtl | hashing.cpp:14-30 | reordering an answer and changing its TTLs and name spellings leaves the digest unchanged, whatever the hash function |
| Hashing.PartNoNewline | hashing.cpp:20 | a part built from newline-free fields holds no newline |
| Hashing.SortedPartsNewlineFree | hashing.cpp:20-23 | for newline-free records no sorted part holds a newline |
| Hashing.JoinEndsWithNewline | hashing.cpp:24-28 | the joined buffer is empty exactly when there are no parts, and otherwise ends in a newline |
| Hashing.JoinInjective | hashing.cpp:24-28 | without newlines inside the parts, the joined bytes determine the parts |
| Hashing.CanonicalEqualIff | hashing.cpp:14-28 | for newline-free records, two answers have equal canonical bytes exactly when they have the same parts counted with multiplicity |
| Hashing.JoinLineCount | hashing.cpp:24-28 | for parts without newlines, the joined buffer holds one newline per part |
| Hashing.CanonicalLineCount | hashing.cpp:16-28 | for names and addresses without `'\n'`, the canonical bytes hold one newline per record, duplicates included |
| Hashing.CanonicalEmptyIff | hashing.cpp:14-28 | the canonical bytes are empty exactly when there are no records |

## Left out

- `Hashing::hash_srv_record` (hashing.cpp:32-34): its body is empty; it returns nothing from a non-void function, so there is no behaviour to model.
- MD5 (`QCryptographicHash::hash`) is a function parameter, so nothing is assumed about collisions. Equal canonical bytes give equal digests by construction. Different canonical bytes are only shown to be different bytes, not different digests.
- `QHostAddress::toString()` is not modelled. A record carries its address as the text that call produces.
- NormalizeName: lower-casing covers ASCII letters only. Qt's full Unicode case mapping (`QString::toLower`) is not modelled, so non-ASCII capitals are left unchanged.
- Strings are sequences of Unicode scalar values. A QString holding an unpaired UTF-16 surrogate cannot be represented, and neither can its replacement by `toUtf8()`.
- The properties about distinct answers and line counts (CanonicalEqualIff, JoinInjective, JoinLineCount, CanonicalLineCount) require parts, and so names and addresses, without `'\n'`. The code does not rule a newline out, and with one the line structure is ambiguous.
- A `'|'` inside a name or an address can make two different records produce the same part. Parts are therefore not claimed to be injective, only the bytes built from parts.
- SortInPlace: `std::sort`'s own algorithm (introsort) is not modelled. An insertion sort stands in for it, and only the result is claimed, which is the same for any correct sort.
- BuildParts returns the vector's contents as a sequence. `Canonical` copies it into an array that is sorted in place; `reserve()` and the vector's growth are not modelled.
- main.cpp (option parsing, help text, the event loop), dnstracker.cpp (DNS lookups through Qt, signals and slots, quitting) and display.cpp / display.h (terminal output) are I/O and are not part of this model.
- Continuous tracking, the supervisor over several servers and the result aggregator are not implemented in the source, so there is nothing of them to model.

=== FILE: Hashing.dfy ===
/** The A-record fingerprint of dns_tracker (hashing.cpp): each record becomes
    "<normalised name>|<address>", the parts are sorted, each is written out
    in UTF-8 followed by a newline, and the bytes are hashed with MD5. */
module Hashing {
  import opened QtString
  import opened Utf8
  import opened Sorting

  /** One QDnsHostAddressRecord. `address` is the text QHostAddress::toString()
      gives for the record's value; `ttl` is its time to live. */
  datatype ARecord = ARecord(name: string, address: string, ttl: nat)

  // ---------------------------------------------------------------------
  // normalize_name
  // ---------------------------------------------------------------------

  /** The chop of one trailing '.', if there is one. */
  function DropFinalDot(s: string): (r: string)
    ensures s == [] || s[|s| - 1] != '.' ==> r == s
    ensures s != [] && s[|s| - 1] == '.' ==> s == r + "."
  {
    if |s| > 0 && s[|s| - 1] == '.' then s[..|s| - 1] else s
  }

  /** Hashing::normalize_name: trimmed, lower-cased, and one trailing '.'
      removed if there is one. */
  function NormalizeName(name: string): (r: string)
    ensures r == [] || !IsSpace(r[0])
    ensures forall k :: 0 <= k < |r| ==> !('A' <= r[k] <= 'Z')
    ensures |Trimmed(name)| - 1 <= |r| <= |Trimmed(name)|
    ensures var l := ToLower(Trimmed(name));
      if l != [] && l[|l| - 1] == '.' then r + "." == l else r == l
  {
    DropFinalDot(ToLower(Trimmed(name)))
  }

  lemma Regroup<T>(p: seq<T>, a: seq<T>, m: seq<T>, b: seq<T>, q: seq<T>)
    ensures p + (a + m + b) + q == (p + a) + m + (b + q)
  {
  }

  lemma ToLowerOfLowerCase(s: string)
    requires forall k :: 0 <= k < |s| ==> !('A' <= s[k] <= 'Z')
    ensures ToLower(s) == s
  {
  }

  /** Names that differ only in (ASCII) letter case normalise alike. */
  lemma NormalizeIgnoresCase(a: string, b: string)
    requires ToLower(a) == ToLower(b)
    ensures NormalizeName(a) == NormalizeName(b)
  {
    TrimmedToLower(a);
    TrimmedToLower(b);
  }

  /** Whitespace around a name does not matter. */
  lemma NormalizeIgnoresSurroundingSpace(pre: string, name: string, post: string)
    requires AllSpace(pre) && AllSpace(post)
    ensures NormalizeName(pre + name + post) == NormalizeName(name)
  {
    var a, b := TrimmedDecomposes(name);
    var m := Trimmed(name);
    Regroup(pre, a, m, b, post);
    AllSpaceConcat(pre, a);
    AllSpaceConcat(b, post);
    TrimmedUnique(pre + a, m, b + post);
  }

  lemma TrimmedAppendDot(name: string)
    requires name == [] || !IsSpace(name[|name| - 1])
    ensures Trimmed(name + ".") == Trimmed(name) + "."
  {
    var a, b := TrimmedDecomposes(name);
    var m := Trimmed(name);
    assert name + "." == a + (m + ".") + [];
    TrimmedUnique(a, m + ".", []);
  }

  lemma TrimmedLast(name: string)
    requires Trimmed(name) != [] && !IsSpace(name[|name| - 1])
    ensures Trimmed(name)[|Trimmed(name)| - 1] == name[|name| - 1]
  {
    var a, b := TrimmedDecomposes(name);
    assert name == (a + Trimmed(name)) + [];
  }

  lemma DropFinalDotOfDotted(l: string)
    ensures DropFinalDot(l + ".") == l
  {
    assert (l + ".")[..|l|] == l;
  }

  lemma LowerEndsAlike(m: string)
    requires m != [] && m[|m| - 1] != '.'
    ensures ToLower(m)[|m| - 1] != '.'
  {
    assert ToLower(m)[|m| - 1] == LowerChar(m[|m| - 1]);
  }

  /** A single trailing dot does not matter: "Example.COM." and "example.com"
      normalise alike. */
  lemma NormalizeIgnoresTrailingDot(name: string)
    requires name == [] || (!IsSpace(name[|name| - 1]) && name[|name| - 1] != '.')
    ensures NormalizeName(name + ".") == NormalizeName(name)
  {
    var m := Trimmed(name);
    var l := ToLower(m);
    TrimmedAppendDot(name);
    ToLowerAppend(m, ".");
    assert ToLower(".") == ".";
    DropFinalDotOfDotted(l);
    if m != [] {
      TrimmedLast(name);
      LowerEndsAlike(m);
    }
    assert DropFinalDot(l) == l;
  }

  /** Only one dot is removed, so normalising is not idempotent. */
  lemma NormalizeRemovesOneDotOnly()
    ensures NormalizeName("a..") == "a."
    ensures NormalizeName(NormalizeName("a..")) == "a"
  {
    assert TrimEndPos("a..", 3) == 3;
    assert TrimStartPos("a..", 0, 3) == 0;
    assert Trimmed("a..") == "a..";
    assert ToLower("a..") == "a..";
    assert DropFinalDot("a..") == "a.";
    assert TrimEndPos("a.", 2) == 2;
    assert TrimStartPos("a.", 0, 2) == 0;
    assert Trimmed("a.") == "a.";
    assert ToLower("a.") == "a.";
  }

  lemma TrimmedDropsTrailingSpace(s: string)
    requires s != [] && IsSpace(s[|s| - 1])
    ensures |Trimmed(s)| < |s|
  {
    assert TrimEndPos(s, |s|) == TrimEndPos(s, |s| - 1);
  }

  /** Normalising a normalised name changes it exactly when it still ends in
      a dot or in whitespace. */
  lemma NormalizeIdempotentIff(name: string)
    ensures var r := NormalizeName(name);
            NormalizeName(r) == r <==> (r == [] || (!IsSpace(r[|r| - 1]) && r[|r| - 1] != '.'))
  {
    var r := NormalizeName(name);
    ToLowerOfLowerCase(r);
    if r != [] {
      if IsSpace(r[|r| - 1]) {
        TrimmedDropsTrailingSpace(r);
      } else {
        TrimmedUnique([], r, []);
        assert [] + r + [] == r;
      }
    }
  }

  lemma ToLowerNoNewline(s: string)
    requires '\n' !in s
    ensures '\n' !in ToLower(s)
  {
    forall k | 0 <= k < |s| ensures ToLower(s)[k] != '\n' {
      assert s[k] != '\n';
    }
  }

  /** Normalising never introduces a newline. */
  lemma NormalizeNoNewline(name: string)
    requires '\n' !in name
    ensures '\n' !in NormalizeName(name)
  {
    var a, b := TrimmedDecomposes(name);
    var l := ToLower(Trimmed(name));
    ToLowerNoNewline(Trimmed(name));
    assert DropFinalDot(l) == l || l == DropFinalDot(l) + ".";
  }

  // ---------------------------------------------------------------------
  // hash_a_record
  // ---------------------------------------------------------------------

  /** QString("%1|%2").arg(name, target): the normalised name, a '|', then the
      address text. The TTL takes no part. */
  function Part(rec: ARecord): string {
    NormalizeName(rec.name) + "|" + rec.address
  }

  /** f applied to each element. */
  function MapSeq<A, B>(f: A -> B, s: seq<A>): (r: seq<B>)
    ensures |r| == |s|
  {
    if s == [] then [] else [f(s[0])] + MapSeq(f, s[1..])
  }

  /** The unsorted parts, in record order. */
  function Parts(records: seq<ARecord>): seq<string> {
    MapSeq(Part, records)
  }

  /** The byte buffer: each part in UTF-8 followed by '\n'. */
  function Join(parts: seq<string>): seq<byte> {
    if parts == [] then []
    else Join(parts[..|parts| - 1]) + Encode(parts[|parts| - 1]) + [NEWLINE]
  }

  /** The bytes hash_a_record hands to MD5. */
  function CanonicalBytes(records: seq<ARecord>): seq<byte> {
    Join(SortSeq(Parts(records)))
  }

  /** The value hash_a_record returns, for a given MD5 function. */
  function Fingerprint(records: seq<ARecord>, md5: seq<byte> -> seq<byte>): seq<byte> {
    md5(CanonicalBytes(records))
  }

  lemma JoinStep(ps: seq<string>, i: nat)
    requires i < |ps|
    ensures Join(ps[..i + 1]) == Join(ps[..i]) + Encode(ps[i]) + [NEWLINE]
  {
    assert ps[..i + 1][..i] == ps[..i];
  }

  /** hashing.cpp:15-21: one part per record, appended in record
      order. */
  method BuildParts(records: seq<ARecord>) returns (parts: seq<string>)
    ensures parts == Parts(records)
  {
    parts := [];
    var i := 0;
    while i < |records|
      invariant 0 <= i <= |records|
      invariant parts == Parts(records[..i])
    {
      MapSeqPrefixStep(Part, records, i);
      var name := NormalizeName(records[i].name);
      var target := records[i].address;
      parts := parts + [name + "|" + target];
      i := i + 1;
    }
    assert records[..i] == records;
  }

  /** hashing.cpp:24-28: each part in UTF-8, then '\n'. */
  method JoinLines(parts: array<string>) returns (joined: seq<byte>)
    ensures joined == Join(parts[..])
  {
    joined := [];
    var i := 0;
    while i < parts.Length
      invariant 0 <= i <= parts.Length
      invariant joined == Join(parts[..i])
    {
      JoinStep(parts[..], i);
      assert parts[..][i] == parts[i];
      joined := joined + Encode(parts[i]);
      joined := joined + [NEWLINE];
      i := i + 1;
    }
    assert parts[..i] == parts[..];
  }

  /** hashing.cpp:15-28: build the parts, sort them in place, and
      append each with its newline. */
  method Canonical(records: seq<ARecord>) returns (joined: seq<byte>)
    ensures joined == CanonicalBytes(records)
  {
    var ps := BuildParts(records);
    var parts := new string[|ps|](k requires 0 <= k < |ps| => ps[k]);
    assert parts[..] == ps;
    SortInPlace(parts);
    joined := JoinLines(parts);
  }

  /** Hashing::hash_a_record, with MD5 (QCryptographicHash) passed in. */
  method HashARecord(records: seq<ARecord>, md5: seq<byte> -> seq<byte>) returns (digest: seq<byte>)
    ensures digest == Fingerprint(records, md5)
  {
    var joined := Canonical(records);
    digest := md5(joined);
  }

  // ---------------------------------------------------------------------
  // Properties of the canonical bytes
  // ---------------------------------------------------------------------

  lemma {:induction false} MapSeqAt<A, B>(f: A -> B, s: seq<A>, i: nat)
    requires i < |s|
    ensures MapSeq(f, s)[i] == f(s[i])
  {
    if i > 0 { MapSeqAt(f, s[1..], i - 1); }
  }

  lemma {:induction false} MapSeqSnoc<A, B>(f: A -> B, s: seq<A>, x: A)
    ensures MapSeq(f, s + [x]) == MapSeq(f, s) + [f(x)]
  {
    if s != [] {
      assert (s + [x])[1..] == s[1..] + [x];
      MapSeqSnoc(f, s[1..], x);
    } else {
      assert s + [x] == [x];
    }
  }

  lemma MapSeqPrefixStep<A, B>(f: A -> B, s: seq<A>, i: nat)
    requires i < |s|
    ensures MapSeq(f, s[..i + 1]) == MapSeq(f, s[..i]) + [f(s[i])]
  {
    assert s[..i + 1] == s[..i] + [s[i]];
    MapSeqSnoc(f, s[..i], s[i]);
  }

  lemma MultisetTail<T>(s: seq<T>)
    requires s != []
    ensures multiset(s[1..]) == multiset(s) - multiset{s[0]}
  {
    assert s == [s[0]] + s[1..];
  }

  lemma {:induction false} MapSeqAppend<A, B>(f: A -> B, a: seq<A>, b: seq<A>)
    ensures MapSeq(f, a + b) == MapSeq(f, a) + MapSeq(f, b)
  {
    if a == [] {
      assert a + b == b;
    } else {
      assert (a + b)[1..] == a[1..] + b;
      MapSeqAppend(f, a[1..], b);
    }
  }

  lemma MultisetSplice<T>(a: seq<T>, x: T, b: seq<T>)
    ensures multiset(a + [x] + b) == multiset(a + b) + multiset{x}
  {
  }

  lemma SplitAt<T>(t: seq<T>, j: nat)
    requires j < |t|
    ensures t == t[..j] + [t[j]] + t[j + 1..]
  {
  }

  /** Removing one element removes its image. */
  lemma MapSeqWithout<A, B>(f: A -> B, t: seq<A>, j: nat)
    requires j < |t|
    ensures multiset(MapSeq(f, t)) == multiset(MapSeq(f, t[..j] + t[j + 1..])) + multiset{f(t[j])}
  {
    var a, b := t[..j], t[j + 1..];
    calc {
      multiset(MapSeq(f, t));
      { SplitAt(t, j); MapSeqAppend(f, a + [t[j]], b); }
      multiset(MapSeq(f, a + [t[j]]) + MapSeq(f, b));
      { MapSeqSnoc(f, a, t[j]); }
      multiset(MapSeq(f, a) + [f(t[j])] + MapSeq(f, b));
      { MultisetSplice(MapSeq(f, a), f(t[j]), MapSeq(f, b)); }
      multiset(MapSeq(f, a) + MapSeq(f, b)) + multiset{f(t[j])};
      { MapSeqAppend(f, a, b); }
      multiset(MapSeq(f, a + b)) + multiset{f(t[j])};
    }
  }

  lemma MultisetWithout<T>(t: seq<T>, j: nat)
    requires j < |t|
    ensures multiset(t[..j] + t[j + 1..]) == multiset(t) - multiset{t[j]}
  {
    SplitAt(t, j);
  }

  /** The step of the permutation proof: the first element of s is matched
      with t[j], and the rest are already known to match. */
  lemma MapSeqPermutationStep<A, B>(f: A -> B, s: seq<A>, t: seq<A>, j: nat)
    requires s != [] && j < |t| && t[j] == s[0]
    requires multiset(MapSeq(f, s[1..])) == multiset(MapSeq(f, t[..j] + t[j + 1..]))
    ensures multiset(MapSeq(f, s)) == multiset(MapSeq(f, t))
  {
    assert MapSeq(f, s) == [f(s[0])] + MapSeq(f, s[1..]);
    MapSeqWithout(f, t, j);
  }

  /** Mapping commutes with reordering. */
  lemma {:induction false} MapSeqPermutation<A, B>(f: A -> B, s: seq<A>, t: seq<A>)
    requires multiset(s) == multiset(t)
    ensures multiset(MapSeq(f, s)) == multiset(MapSeq(f, t))
    decreases |s|
  {
    if s == [] {
      assert |t| == |multiset(t)| == 0;
    } else {
      assert s[0] in multiset(t);
      var j :| 0 <= j < |t| && t[j] == s[0];
      MultisetTail(s);
      MultisetWithout(t, j);
      MapSeqPermutation(f, s[1..], t[..j] + t[j + 1..]);
      MapSeqPermutationStep(f, s, t, j);
    }
  }

  /** Reordering the records reorders their parts. */
  lemma PartsPermutation(rs: seq<ARecord>, qs: seq<ARecord>)
    requires multiset(rs) == multiset(qs)
    ensures multiset(Parts(rs)) == multiset(Parts(qs))
  {
    MapSeqPermutation(Part, rs, qs);
  }

  /** The canonical bytes depend only on the multiset of parts. */
  lemma CanonicalDependsOnPartsOnly(rs: seq<ARecord>, qs: seq<ARecord>)
    requires multiset(Parts(rs)) == multiset(Parts(qs))
    ensures CanonicalBytes(rs) == CanonicalBytes(qs)
  {
    SortedUnique(SortSeq(Parts(rs)), SortSeq(Parts(qs)));
  }

  /** The order of the records in the answer does not matter. */
  lemma CanonicalIgnoresOrder(rs: seq<ARecord>, qs: seq<ARecord>)
    requires multiset(rs) == multiset(qs)
    ensures CanonicalBytes(rs) == CanonicalBytes(qs)
  {
    PartsPermutation(rs, qs);
    CanonicalDependsOnPartsOnly(rs, qs);
  }

  /** Record lists that agree, record by record, on the normalised name and on
      the address: they may differ in TTL, in name case, in surrounding
      whitespace and in a trailing dot. */
  predicate SameKeys(rs: seq<ARecord>, qs: seq<ARecord>) {
    |rs| == |qs| &&
    forall i :: 0 <= i < |rs| ==>
      NormalizeName(rs[i].name) == NormalizeName(qs[i].name) && rs[i].address == qs[i].address
  }

  /** TTLs and the spelling of names never reach the canonical bytes. */
  lemma CanonicalIgnoresTtlAndNameForm(rs: seq<ARecord>, qs: seq<ARecord>)
    requires SameKeys(rs, qs)
    ensures CanonicalBytes(rs) == CanonicalBytes(qs)
  {
    forall i | 0 <= i < |rs| ensures Parts(rs)[i] == Parts(qs)[i] {
      MapSeqAt(Part, rs, i);
      MapSeqAt(Part, qs, i);
    }
    assert Parts(rs) == Parts(qs);
  }

  /** Reordering the answer and changing its TTLs leaves the fingerprint as
      it was, whatever the hash function. */
  lemma FingerprintIgnoresOrderAndTtl(rs: seq<ARecord>, qs: seq<ARecord>, ws: seq<ARecord>,
                                      md5: seq<byte> -> seq<byte>)
    requires multiset(rs) == multiset(qs)
    requires SameKeys(qs, ws)
    ensures Fingerprint(rs, md5) == Fingerprint(ws, md5)
  {
    CanonicalIgnoresOrder(rs, qs);
    CanonicalIgnoresTtlAndNameForm(qs, ws);
  }

  /** No record carries a newline in its name or address text. */
  predicate NewlineFree(rs: seq<ARecord>) {
    forall i :: 0 <= i < |rs| ==> '\n' !in rs[i].name && '\n' !in rs[i].address
  }

  predicate PartsNewlineFree(ps: seq<string>) {
    forall i :: 0 <= i < |ps| ==> '\n' !in ps[i]
  }

  lemma PartNoNewline(rec: ARecord)
    requires '\n' !in rec.name && '\n' !in rec.address
    ensures '\n' !in Part(rec)
  {
    NormalizeNoNewline(rec.name);
  }

  lemma SortedPartsNewlineFree(rs: seq<ARecord>)
    requires NewlineFree(rs)
    ensures PartsNewlineFree(SortSeq(Parts(rs)))
  {
    var ps := Parts(rs);
    forall i | 0 <= i < |ps| ensures '\n' !in ps[i] {
      MapSeqAt(Part, rs, i);
      PartNoNewline(rs[i]);
    }
    var sorted := SortSeq(ps);
    forall i | 0 <= i < |sorted| ensures '\n' !in sorted[i] {
      assert sorted[i] in multiset(ps);
    }
  }

  lemma JoinEndsWithNewline(ps: seq<string>)
    ensures Join(ps) == [] <==> ps == []
    ensures Join(ps) != [] ==> Join(ps)[|Join(ps)| - 1] == NEWLINE
  {
  }

  /** A newline-free tail after a buffer that is empty or ends in a newline
      can be told apart from the buffer. */
  lemma SplitAfterLastNewline(x: seq<byte>, u: seq<byte>, y: seq<byte>, v: seq<byte>)
    requires x == [] || x[|x| - 1] == NEWLINE
    requires y == [] || y[|y| - 1] == NEWLINE
    requires NEWLINE !in u && NEWLINE !in v
    requires x + u == y + v
    ensures x == y && u == v
  {
    assert x == (x + u)[..|x|] && y == (y + v)[..|y|];
    assert u == (x + u)[|x|..] && v == (y + v)[|y|..];
  }

  lemma JoinWithoutLastNewline(ps: seq<string>)
    requires ps != []
    ensures Join(ps)[..|Join(ps)| - 1] == Join(ps[..|ps| - 1]) + Encode(ps[|ps| - 1])
  {
    var x := Join(ps[..|ps| - 1]) + Encode(ps[|ps| - 1]);
    assert (x + [NEWLINE])[..|x|] == x;
  }

  lemma SnocLast<T>(s: seq<T>)
    requires s != []
    ensures s == s[..|s| - 1] + [s[|s| - 1]]
  {
  }

  /** Without newlines inside the parts, the joined bytes give back the parts. */
  lemma {:induction false} JoinInjective(ps: seq<string>, qs: seq<string>)
    requires PartsNewlineFree(ps) && PartsNewlineFree(qs)
    requires Join(ps) == Join(qs)
    ensures ps == qs
    decreases |ps|
  {
    JoinEndsWithNewline(ps);
    JoinEndsWithNewline(qs);
    if ps != [] && qs != [] {
      var pi, qi := ps[..|ps| - 1], qs[..|qs| - 1];
      var u, v := Encode(ps[|ps| - 1]), Encode(qs[|qs| - 1]);
      JoinWithoutLastNewline(ps);
      JoinWithoutLastNewline(qs);
      JoinEndsWithNewline(pi);
      JoinEndsWithNewline(qi);
      SplitAfterLastNewline(Join(pi), u, Join(qi), v);
      EncodeInjective(ps[|ps| - 1], qs[|qs| - 1]);
      JoinInjective(pi, qi);
      SnocLast(ps);
      SnocLast(qs);
    }
  }

  /** For records without newlines, two answers have the same canonical bytes
      exactly when they have the same parts, counted with multiplicity: TTL
      and order are ignored, and every other difference shows. */
  lemma CanonicalEqualIff(rs: seq<ARecord>, qs: seq<ARecord>)
    requires NewlineFree(rs) && NewlineFree(qs)
    ensures CanonicalBytes(rs) == CanonicalBytes(qs) <==> multiset(Parts(rs)) == multiset(Parts(qs))
  {
    if CanonicalBytes(rs) == CanonicalBytes(qs) {
      SortedPartsNewlineFree(rs);
      SortedPartsNewlineFree(qs);
      JoinInjective(SortSeq(Parts(rs)), SortSeq(Parts(qs)));
    }
    if multiset(Parts(rs)) == multiset(Parts(qs)) {
      CanonicalDependsOnPartsOnly(rs, qs);
    }
  }

  /** The number of newline bytes. */
  function NewlineCount(bytes: seq<byte>): nat {
    if bytes == [] then 0
    else NewlineCount(bytes[..|bytes| - 1]) + (if bytes[|bytes| - 1] == NEWLINE then 1 else 0)
  }

  lemma {:induction false} NewlineCountAppend(x: seq<byte>, y: seq<byte>)
    ensures NewlineCount(x + y) == NewlineCount(x) + NewlineCount(y)
    decreases |y|
  {
    if y == [] {
      assert x + y == x;
    } else {
      assert (x + y)[..|x + y| - 1] == x + y[..|y| - 1];
      NewlineCountAppend(x, y[..|y| - 1]);
    }
  }

  lemma {:induction false} NewlineCountZero(x: seq<byte>)
    requires NEWLINE !in x
    ensures NewlineCount(x) == 0
    decreases |x|
  {
    if x != [] {
      assert NEWLINE !in x[..|x| - 1];
      NewlineCountZero(x[..|x| - 1]);
    }
  }

  lemma {:induction false} JoinLineCount(ps: seq<string>)
    requires PartsNewlineFree(ps)
    ensures NewlineCount(Join(ps)) == |ps|
    decreases |ps|
  {
    if ps != [] {
      var init := ps[..|ps| - 1];
      JoinLineCount(init);
      NewlineCountAppend(Join(init) + Encode(ps[|ps| - 1]), [NEWLINE]);
      NewlineCountAppend(Join(init), Encode(ps[|ps| - 1]));
      NewlineCountZero(Encode(ps[|ps| - 1]));
    }
  }

  /** One newline-terminated line per record, duplicates included; no
      records, no bytes. */
  lemma CanonicalLineCount(rs: seq<ARecord>)
    requires NewlineFree(rs)
    ensures NewlineCount(CanonicalBytes(rs)) == |rs|
  {
    SortedPartsNewlineFree(rs);
    JoinLineCount(SortSeq(Parts(rs)));
    assert |SortSeq(Parts(rs))| == |multiset(SortSeq(Parts(rs)))| == |multiset(Parts(rs))| == |Parts(rs)|;
  }

  /** An empty answer, and only an empty answer, gives empty bytes. */
  lemma CanonicalEmptyIff(rs: seq<ARecord>)
    ensures CanonicalBytes(rs) == [] <==> rs == []
  {
    var sorted := SortSeq(Parts(rs));
    assert |sorted| == |multiset(sorted)| == |multiset(Parts(rs))| == |rs|;
    JoinEndsWithNewline(sorted);
  }
}

=== FILE: QtString.dfy ===
/** The three QString operations the fingerprint relies on: trimmed(),
    toLower() and operator<. A QString is modelled as a sequence of Unicode
    scalar values (Dafny's char). */
module QtString {

  /** QChar::isSpace: the ASCII controls TAB..CR, U+0085, and every character
      of the Unicode categories Zs, Zl and Zp. */
  predicate IsSpace(c: char) {
    var n := c as int;
    (0x09 <= n <= 0x0D) || n == 0x20 || n == 0x85 || n == 0xA0 || n == 0x1680
    || (0x2000 <= n <= 0x200A) || n == 0x2028 || n == 0x2029 || n == 0x202F
    || n == 0x205F || n == 0x3000
  }

  predicate AllSpace(s: string) {
    forall k :: 0 <= k < |s| ==> IsSpace(s[k])
  }

  lemma AllSpaceConcat(a: string, b: string)
    requires AllSpace(a) && AllSpace(b)
    ensures AllSpace(a + b)
  {
    forall k | 0 <= k < |a + b| ensures IsSpace((a + b)[k]) {
      if k < |a| { assert (a + b)[k] == a[k]; } else { assert (a + b)[k] == b[k - |a|]; }
    }
  }

  /** A string that trimmed() leaves alone: empty, or starting and ending with
      a non-space character. */
  predicate IsTrim(s: string) {
    s == [] || (!IsSpace(s[0]) && !IsSpace(s[|s| - 1]))
  }

  /** Scanning back from position e past whitespace: where the trimmed text
      ends. */
  function TrimEndPos(s: string, e: nat): (r: nat)
    requires e <= |s|
    ensures r <= e
    ensures forall k :: r <= k < e ==> IsSpace(s[k])
    ensures r == 0 || !IsSpace(s[r - 1])
    decreases e
  {
    if e > 0 && IsSpace(s[e - 1]) then TrimEndPos(s, e - 1) else e
  }

  /** Scanning forward from position b, not beyond e, past whitespace: where
      the trimmed text starts. */
  function TrimStartPos(s: string, b: nat, e: nat): (r: nat)
    requires b <= e <= |s|
    ensures b <= r <= e
    ensures forall k :: b <= k < r ==> IsSpace(s[k])
    ensures r == e || !IsSpace(s[r])
    decreases e - b
  {
    if b < e && IsSpace(s[b]) then TrimStartPos(s, b + 1, e) else b
  }

  /** QString::trimmed(): the end is found first, scanning back, then the
      start, scanning forward up to that end. */
  function Trimmed(s: string): (r: string)
    ensures |r| <= |s|
    ensures IsTrim(r)
    ensures r == [] <==> AllSpace(s)
  {
    var e := TrimEndPos(s, |s|);
    var b := TrimStartPos(s, 0, e);
    s[b..e]
  }

  lemma {:induction false} TrimEndPosOver(s: string, e: nat, t: nat)
    requires t <= e <= |s|
    requires forall k :: t <= k < e ==> IsSpace(s[k])
    requires t == 0 || !IsSpace(s[t - 1])
    ensures TrimEndPos(s, e) == t
    decreases e
  {
    if t < e { TrimEndPosOver(s, e - 1, t); }
  }

  lemma {:induction false} TrimStartPosOver(s: string, b: nat, e: nat, t: nat)
    requires b <= t <= e <= |s|
    requires forall k :: b <= k < t ==> IsSpace(s[k])
    requires t == e || !IsSpace(s[t])
    ensures TrimStartPos(s, b, e) == t
    decreases e - b
  {
    if b < t { TrimStartPosOver(s, b + 1, e, t); }
  }

  /** trimmed() is characterised by its result: whatever whitespace surrounds
      a trimmed core, trimming gives back exactly that core. */
  lemma TrimmedUnique(a: string, m: string, b: string)
    requires AllSpace(a) && AllSpace(b) && IsTrim(m)
    ensures Trimmed(a + m + b) == m
  {
    var s := a + m + b;
    if m == [] {
      TrimEndPosOver(s, |s|, 0);
      TrimStartPosOver(s, 0, 0, 0);
    } else {
      TrimEndPosOver(s, |s|, |a| + |m|);
      TrimStartPosOver(s, 0, |a| + |m|, |a|);
      assert s[|a|..|a| + |m|] == m;
    }
  }

  /** Every string is its trimmed form wrapped in whitespace. */
  lemma TrimmedDecomposes(s: string) returns (a: string, b: string)
    ensures AllSpace(a) && AllSpace(b)
    ensures s == a + Trimmed(s) + b
  {
    var e := TrimEndPos(s, |s|);
    var i := TrimStartPos(s, 0, e);
    a, b := s[..i], s[e..];
    assert s == s[..i] + s[i..e] + s[e..];
  }

  /** QChar::toLower, restricted to ASCII: 'A'..'Z' become 'a'..'z'. */
  function LowerChar(c: char): (d: char)
    ensures !('A' <= d <= 'Z')
    ensures d != c <==> 'A' <= c <= 'Z'
    ensures d != c ==> d as int == c as int + 32
    ensures IsSpace(d) == IsSpace(c)
  {
    if 'A' <= c <= 'Z' then (c as int + 32) as char else c
  }

  /** QString::toLower(), restricted to ASCII. */
  function ToLower(s: string): (r: string)
    ensures |r| == |s|
    ensures forall k :: 0 <= k < |s| ==> r[k] == LowerChar(s[k])
  {
    if s == [] then [] else [LowerChar(s[0])] + ToLower(s[1..])
  }

  lemma {:induction false} ToLowerAppend(s: string, t: string)
    ensures ToLower(s + t) == ToLower(s) + ToLower(t)
  {
    if s == [] {
      assert s + t == t;
    } else {
      assert (s + t)[1..] == s[1..] + t;
      ToLowerAppend(s[1..], t);
    }
  }

  lemma ToLowerKeepsSpace(s: string)
    requires AllSpace(s)
    ensures AllSpace(ToLower(s))
  {
  }

  lemma ToLowerKeepsTrim(s: string)
    requires IsTrim(s)
    ensures IsTrim(ToLower(s))
  {
  }

  /** Lower-casing and trimming commute: whitespace is not a letter. */
  lemma {:induction false} TrimmedToLower(s: string)
    ensures Trimmed(ToLower(s)) == ToLower(Trimmed(s))
  {
    var a, b := TrimmedDecomposes(s);
    var m := Trimmed(s);
    ToLowerAppend(a + m, b);
    ToLowerAppend(a, m);
    assert ToLower(s) == ToLower(a) + ToLower(m) + ToLower(b);
    ToLowerKeepsSpace(a);
    ToLowerKeepsSpace(b);
    ToLowerKeepsTrim(m);
    TrimmedUnique(ToLower(a), ToLower(m), ToLower(b));
  }

  // ---------------------------------------------------------------------
  // QString ordering. operator< compares the UTF-16 code units of the two
  // strings lexicographically. Per character this is code-point order,
  // except that the characters U+E000..U+FFFF (one code unit) sort after
  // every supplementary character (a surrogate pair, whose first unit is in
  // U+D800..U+DBFF).
  // ---------------------------------------------------------------------

  /** 1 for the characters that sort above every supplementary character. */
  function Utf16Band(c: char): int {
    if 0xE000 <= c as int <= 0xFFFF then 1 else 0
  }

  predicate CharLess(x: char, y: char) {
    if Utf16Band(x) != Utf16Band(y) then Utf16Band(x) < Utf16Band(y) else x < y
  }

  /** QString operator<: lexicographic, a proper prefix comes first. */
  predicate LessThan(a: string, b: string) {
    if b == [] then false
    else if a == [] then true
    else if a[0] != b[0] then CharLess(a[0], b[0])
    else LessThan(a[1..], b[1..])
  }

  lemma {:induction false} LessIrreflexive(a: string)
    ensures !LessThan(a, a)
  {
    if a != [] { LessIrreflexive(a[1..]); }
  }

  lemma {:induction false} LessTransitive(a: string, b: string, c: string)
    requires LessThan(a, b) && LessThan(b, c)
    ensures LessThan(a, c)
  {
    if a != [] && a[0] == b[0] && b[0] == c[0] {
      LessTransitive(a[1..], b[1..], c[1..]);
    }
  }

  /** Exactly one of a < b, a == b, b < a holds. */
  lemma {:induction false} LessTrichotomy(a: string, b: string)
    ensures a == b || LessThan(a, b) || LessThan(b, a)
    ensures !(LessThan(a, b) && LessThan(b, a))
    ensures a == b ==> !LessThan(a, b)
  {
    if a != [] && b != [] && a[0] == b[0] {
      LessTrichotomy(a[1..], b[1..]);
      if a[1..] == b[1..] { assert a == [a[0]] + a[1..] && b == [b[0]] + b[1..]; }
    } else if a == b {
      LessIrreflexive(a);
    }
  }

  /** "Not less than" is transitive. */
  lemma NotLessTransitive(a: string, b: string, c: string)
    requires !LessThan(b, a) && !LessThan(c, b)
    ensures !LessThan(c, a)
  {
    LessTrichotomy(a, b);
    LessTrichotomy(b, c);
    if LessThan(c, a) {
      if a == b { } else if b == c { } else { LessTransitive(a, b, c); LessTrichotomy(a, c); }
    }
  }

  // The UTF-16 form, to show that LessThan is the code-unit order.

  /** The UTF-16 code units of one character. */
  function Utf16Char(c: char): (u: seq<int>)
    ensures |u| == (if c as int < 0x10000 then 1 else 2)
    ensures |u| == 1 ==> u[0] == c as int
    ensures |u| == 2 ==> 0xD800 <= u[0] < 0xDC00 && 0xDC00 <= u[1] < 0xE000
  {
    var n := c as int;
    if n < 0x10000 then [n]
    else [0xD800 + (n - 0x10000) / 0x400, 0xDC00 + (n - 0x10000) % 0x400]
  }

  /** The UTF-16 code units of a string. */
  function Utf16(s: string): seq<int> {
    if s == [] then [] else Utf16Char(s[0]) + Utf16(s[1..])
  }

  /** Lexicographic order on code units, a proper prefix first. */
  predicate UnitsLess(u: seq<int>, v: seq<int>) {
    if v == [] then false
    else if u == [] then true
    else if u[0] != v[0] then u[0] < v[0]
    else UnitsLess(u[1..], v[1..])
  }

  lemma {:induction false} UnitsLessCommonPrefix(p: seq<int>, u: seq<int>, v: seq<int>)
    ensures UnitsLess(p + u, p + v) == UnitsLess(u, v)
    decreases |p|
  {
    if p != [] {
      assert (p + u)[1..] == p[1..] + u;
      assert (p + v)[1..] == p[1..] + v;
      UnitsLessCommonPrefix(p[1..], u, v);
    } else {
      assert p + u == u && p + v == v;
    }
  }

  lemma SupplementaryUnits(n: int, m: int)
    requires 0x10000 <= n && 0x10000 <= m
    ensures (n - 0x10000) / 0x400 < (m - 0x10000) / 0x400 ==> n < m
    ensures (n - 0x10000) / 0x400 == (m - 0x10000) / 0x400 ==>
              (n < m <==> (n - 0x10000) % 0x400 < (m - 0x10000) % 0x400)
  {
  }

  /** The encodings of two different characters differ within both of them,
      so the first differing unit decides; and it decides as CharLess does. */
  lemma {:induction false} UnitsLessDistinctChars(x: char, y: char, u: seq<int>, v: seq<int>)
    requires x != y
    ensures UnitsLess(Utf16Char(x) + u, Utf16Char(y) + v) == CharLess(x, y)
  {
    var ex, ey := Utf16Char(x), Utf16Char(y);
    var n, m := x as int, y as int;
    assert (ex + u)[0] == ex[0] && (ey + v)[0] == ey[0];
    if ex[0] == ey[0] {
      // both are surrogate pairs with the same lead unit
      assert |ex| == 2 && |ey| == 2;
      assert (ex + u)[1..] == [ex[1]] + u && (ey + v)[1..] == [ey[1]] + v;
      SupplementaryUnits(n, m);
      SupplementaryUnits(m, n);
      assert ex[1] != ey[1];
    } else if n >= 0x10000 && m >= 0x10000 {
      SupplementaryUnits(n, m);
      SupplementaryUnits(m, n);
    }
  }

  /** LessThan is QString's operator<: UTF-16 code-unit order. */
  lemma {:induction false} LessThanIsUtf16Order(a: string, b: string)
    ensures LessThan(a, b) == UnitsLess(Utf16(a), Utf16(b))
  {
    if a == [] || b == [] {
    } else if a[0] == b[0] {
      LessThanIsUtf16Order(a[1..], b[1..]);
      UnitsLessCommonPrefix(Utf16Char(a[0]), Utf16(a[1..]), Utf16(b[1..]));
    } else {
      UnitsLessDistinctChars(a[0], b[0], Utf16(a[1..]), Utf16(b[1..]));
    }
  }
}

=== FILE: Sorting.dfy ===
/** std::sort over a vector of QStrings, ordered by QString operator<. */
module Sorting {
  import opened QtString

  /** Ascending: no element is less than one before it. */
  predicate Sorted(s: seq<string>) {
    forall i, j :: 0 <= i < j < |s| ==> !LessThan(s[j], s[i])
  }

  /** Each element is not less than its predecessor. */
  predicate AdjacentSorted(s: seq<string>) {
    forall k :: 0 < k < |s| ==> !LessThan(s[k], s[k - 1])
  }

  lemma {:induction false} AdjacentChain(s: seq<string>, i: nat, j: nat)
    requires AdjacentSorted(s)
    requires i < j < |s|
    ensures !LessThan(s[j], s[i])
    decreases j - i
  {
    if i + 1 < j {
      AdjacentChain(s, i, j - 1);
      NotLessTransitive(s[i], s[j - 1], s[j]);
    }
  }

  /** Comparing neighbours is enough: the order is transitive. */
  lemma AdjacentSortedIsSorted(s: seq<string>)
    requires AdjacentSorted(s)
    ensures Sorted(s)
  {
    forall i, j | 0 <= i < j < |s| ensures !LessThan(s[j], s[i]) {
      AdjacentChain(s, i, j);
    }
  }

  lemma SortedTail(s: seq<string>)
    requires Sorted(s) && s != []
    ensures Sorted(s[1..])
  {
    forall i, j | 0 <= i < j < |s| - 1 ensures !LessThan(s[1..][j], s[1..][i]) {
      assert s[1..][j] == s[j + 1] && s[1..][i] == s[i + 1];
    }
  }

  lemma TailMultiset<T>(a: seq<T>, b: seq<T>)
    requires a != [] && b != [] && a[0] == b[0]
    requires multiset(a) == multiset(b)
    ensures multiset(a[1..]) == multiset(b[1..])
  {
    assert a == [a[0]] + a[1..] && b == [b[0]] + b[1..];
    assert multiset(a[1..]) == multiset(a) - multiset{a[0]};
    assert multiset(b[1..]) == multiset(b) - multiset{b[0]};
  }

  /** The first element of a sorted sequence is not greater than any of its
      elements. */
  lemma SortedHeadIsLeast(s: seq<string>, x: string)
    requires Sorted(s) && x in multiset(s)
    ensures s != [] && !LessThan(x, s[0])
  {
    var k :| 0 <= k < |s| && s[k] == x;
    if k == 0 { LessIrreflexive(x); }
  }

  /** Two sorted arrangements of the same strings are the same sequence, so
      sorting forgets the order the strings came in. */
  lemma {:induction false} SortedUnique(a: seq<string>, b: seq<string>)
    requires Sorted(a) && Sorted(b)
    requires multiset(a) == multiset(b)
    ensures a == b
  {
    assert |a| == |multiset(a)| == |multiset(b)| == |b|;
    if a != [] {
      SortedHeadIsLeast(b, a[0]);
      SortedHeadIsLeast(a, b[0]);
      LessTrichotomy(a[0], b[0]);
      TailMultiset(a, b);
      SortedTail(a);
      SortedTail(b);
      SortedUnique(a[1..], b[1..]);
      assert a == [a[0]] + a[1..] && b == [b[0]] + b[1..];
    }
  }

  lemma InsertFront(x: string, s: seq<string>)
    requires Sorted(s)
    requires s == [] || !LessThan(s[0], x)
    ensures Sorted([x] + s)
  {
    forall j | 0 < j < |s| ensures !LessThan(s[j], x) {
      NotLessTransitive(x, s[0], s[j]);
    }
  }

  lemma InsertBehind(y: string, r: seq<string>)
    requires Sorted(r)
    requires forall z | z in multiset(r) :: !LessThan(z, y)
    ensures Sorted([y] + r)
  {
    forall j | 0 <= j < |r| ensures !LessThan(r[j], y) {
      assert r[j] in multiset(r);
    }
  }

  /** Insertion of one string into a sorted sequence. */
  function Insert(x: string, s: seq<string>): (r: seq<string>)
    requires Sorted(s)
    ensures Sorted(r)
    ensures multiset(r) == multiset(s) + multiset{x}
  {
    if s == [] || !LessThan(s[0], x) then
      InsertFront(x, s);
      [x] + s
    else
      var r := Insert(x, s[1..]);
      assert s == [s[0]] + s[1..];
      assert forall z | z in multiset(r) :: !LessThan(z, s[0]) by {
        forall z | z in multiset(r) ensures !LessThan(z, s[0]) {
          if z == x {
            LessTrichotomy(s[0], x);
          } else {
            assert z in s[1..];
          }
        }
      }
      InsertBehind(s[0], r);
      [s[0]] + r
  }

  /** The sorted arrangement of a sequence of strings. */
  function SortSeq(s: seq<string>): (r: seq<string>)
    ensures Sorted(r)
    ensures multiset(r) == multiset(s)
  {
    if s == [] then []
    else
      assert s == [s[0]] + s[1..];
      Insert(s[0], SortSeq(s[1..]))
  }

  /** A sorted permutation is the sorted arrangement. */
  lemma SortedPermutationIsSortSeq(a: seq<string>, s: seq<string>)
    requires Sorted(a) && multiset(a) == multiset(s)
    ensures a == SortSeq(s)
  {
    SortedUnique(a, SortSeq(s));
  }

  /** While a[i] moves left: the prefix up to i is ordered except at j, and
      the neighbours of j are ordered with each other. */
  predicate Sifting(s: seq<string>, i: nat, j: nat) {
    j <= i < |s|
    && (forall k :: 0 < k <= i && k != j ==> !LessThan(s[k], s[k - 1]))
    && (0 < j < i ==> !LessThan(s[j + 1], s[j - 1]))
  }

  /** Exchanging s[j] with a greater predecessor moves the gap one step left
      and keeps the same strings. */
  lemma SiftStep(s: seq<string>, i: nat, j: nat)
    requires Sifting(s, i, j) && 0 < j && LessThan(s[j], s[j - 1])
    ensures Sifting(s[j - 1 := s[j]][j := s[j - 1]], i, j - 1)
    ensures multiset(s[j - 1 := s[j]][j := s[j - 1]]) == multiset(s)
  {
    LessTrichotomy(s[j], s[j - 1]);
  }

  /** A swap of two neighbours inside s[..i + 1] keeps what that prefix holds
      and leaves everything after it alone. */
  lemma SwapInPrefix(s: seq<string>, i: nat, j: nat)
    requires 0 < j <= i < |s|
    ensures var t := s[j - 1 := s[j]][j := s[j - 1]];
            multiset(t[..i + 1]) == multiset(s[..i + 1]) && t[i + 1..] == s[i + 1..]
  {
    var t := s[j - 1 := s[j]][j := s[j - 1]];
    assert t[..i + 1] == s[..i + 1][j - 1 := s[j]][j := s[j - 1]];
  }

  /** One insertion step: a[i] moves left past every greater neighbour, so
      the prefix a[..i + 1] becomes ordered. */
  method InsertAt(a: array<string>, i: nat)
    requires i < a.Length
    requires forall k :: 0 < k < i ==> !LessThan(a[k], a[k - 1])
    modifies a
    ensures forall k :: 0 < k <= i ==> !LessThan(a[k], a[k - 1])
    ensures multiset(a[..i + 1]) == old(multiset(a[..i + 1]))
    ensures a[i + 1..] == old(a[i + 1..])
    ensures multiset(a[..]) == old(multiset(a[..]))
  {
    var j := i;
    while j > 0 && LessThan(a[j], a[j - 1])
      invariant 0 <= j && Sifting(a[..], i, j)
      invariant multiset(a[..i + 1]) == old(multiset(a[..i + 1]))
      invariant a[i + 1..] == old(a[i + 1..])
      invariant multiset(a[..]) == old(multiset(a[..]))
    {
      ghost var before := a[..];
      SiftStep(before, i, j);
      SwapInPrefix(before, i, j);
      a[j - 1], a[j] := a[j], a[j - 1];
      assert a[..] == before[j - 1 := before[j]][j := before[j - 1]];
      j := j - 1;
    }
  }

  /** std::sort(parts.begin(), parts.end()): sorts the array in place (by
      insertion; std::sort's algorithm is not modelled, only its result). */
  method SortInPlace(a: array<string>)
    modifies a
    ensures Sorted(a[..])
    ensures multiset(a[..]) == old(multiset(a[..]))
    ensures a[..] == SortSeq(old(a[..]))
  {
    var i := 0;
    while i < a.Length
      invariant 0 <= i <= a.Length
      invariant forall k :: 0 < k < i ==> !LessThan(a[k], a[k - 1])
      invariant multiset(a[..]) == old(multiset(a[..]))
    {
      InsertAt(a, i);
      i := i + 1;
    }
    assert AdjacentSorted(a[..]);
    AdjacentSortedIsSorted(a[..]);
    SortedPermutationIsSortSeq(a[..], old(a[..]));
  }
}

=== FILE: Utf8.dfy ===
/** QString::toUtf8(): the bytes the canonical string is built from. */
module Utf8 {

  newtype byte = x: int | 0 <= x < 0x100

  const NEWLINE: byte := 0x0A

  /** The length of a UTF-8 sequence announced by its lead byte; 0 for a byte
      that cannot start one. */
  function LeadLength(b: byte): nat {
    if b < 0x80 then 1
    else if b < 0xC0 then 0
    else if b < 0xE0 then 2
    else if b < 0xF0 then 3
    else if b < 0xF8 then 4
    else 0
  }

  predicate IsContinuation(b: byte) {
    0x80 <= b < 0xC0
  }

  /** The UTF-8 encoding of one Unicode scalar value. */
  function EncodeChar(c: char): (r: seq<byte>)
    ensures 1 <= |r| <= 4 && LeadLength(r[0]) == |r|
    ensures forall k :: 1 <= k < |r| ==> IsContinuation(r[k])
    ensures |r| == 1 <==> c as int < 0x80
    ensures |r| == 1 ==> r[0] as int == c as int
  {
    var n := c as int;
    if n < 0x80 then
      [n as byte]
    else if n < 0x800 then
      [(0xC0 + n / 0x40) as byte, (0x80 + n % 0x40) as byte]
    else if n < 0x10000 then
      [(0xE0 + n / 0x1000) as byte, (0x80 + n / 0x40 % 0x40) as byte, (0x80 + n % 0x40) as byte]
    else
      [(0xF0 + n / 0x40000) as byte, (0x80 + n / 0x1000 % 0x40) as byte,
       (0x80 + n / 0x40 % 0x40) as byte, (0x80 + n % 0x40) as byte]
  }

  /** The code point a well-formed UTF-8 sequence stands for. */
  function DecodeChar(r: seq<byte>): int
    requires 1 <= |r| && |r| == LeadLength(r[0])
  {
    if |r| == 1 then
      r[0] as int
    else if |r| == 2 then
      (r[0] as int - 0xC0) * 0x40 + (r[1] as int - 0x80)
    else if |r| == 3 then
      (r[0] as int - 0xE0) * 0x1000 + (r[1] as int - 0x80) * 0x40 + (r[2] as int - 0x80)
    else
      (r[0] as int - 0xF0) * 0x40000 + (r[1] as int - 0x80) * 0x1000
      + (r[2] as int - 0x80) * 0x40 + (r[3] as int - 0x80)
  }

  lemma DivMod64(n: int)
    requires 0 <= n
    ensures n == n / 0x40 * 0x40 + n % 0x40
    ensures n / 0x40 / 0x40 == n / 0x1000
    ensures n / 0x1000 / 0x40 == n / 0x40000
  {
  }

  /** Decoding undoes encoding, one character at a time. */
  lemma DecodeEncodeChar(c: char)
    ensures DecodeChar(EncodeChar(c)) == c as int
  {
    var n := c as int;
    DivMod64(n);
    DivMod64(n / 0x40);
    DivMod64(n / 0x1000);
  }

  /** QString::toUtf8() on a string of scalar values. */
  function Encode(s: string): (r: seq<byte>)
    ensures |r| >= |s|
    ensures NEWLINE in r <==> '\n' in s
  {
    if s == [] then []
    else
      var e := EncodeChar(s[0]);
      assert NEWLINE in e <==> s[0] == '\n' by {
        if |e| > 1 { assert forall k :: 0 <= k < |e| ==> e[k] != NEWLINE; }
      }
      assert '\n' in s <==> s[0] == '\n' || '\n' in s[1..] by {
        assert s == [s[0]] + s[1..];
      }
      e + Encode(s[1..])
  }

  /** Different strings have different encodings. */
  lemma {:induction false} EncodeInjective(s: string, t: string)
    requires Encode(s) == Encode(t)
    ensures s == t
  {
    if s != [] && t != [] {
      var es, et := EncodeChar(s[0]), EncodeChar(t[0]);
      var e := Encode(s);
      assert |es| == LeadLength(e[0]) == |et|;
      assert es == e[..|es|] == et;
      DecodeEncodeChar(s[0]);
      DecodeEncodeChar(t[0]);
      assert Encode(s[1..]) == e[|es|..] == Encode(t[1..]);
      EncodeInjective(s[1..], t[1..]);
      assert s == [s[0]] + s[1..] && t == [t[0]] + t[1..];
    }
  }
}
